=== FILE: README.md ===
# Pagination core of canvas-pdf-testing

The application lays out draggable table widgets on an unbounded vertical canvas
and exports it as a paginated PDF. Its only algorithmic part is the pagination
engine, and this project models it in Dafny:

- **Page geometry** (`src/utils/pdfMode.ts`). A Letter page is 816 × 1056 px with
  a 40 px margin. `getPageForY` turns an absolute Y into a 1-based page number.
  `getRelativeY` turns it into an offset within that page.
- **Top-aware paginator** (`src/utils/pdfMode.ts`, `calculateTablePagination`).
  A table whose top lies part-way down a page gets a short first page. It then
  gets full continuation pages, each repeating the header between two margins.
- **Uniform paginator** (`src/utils/pagination.ts`, `calculateTablePagination`).
  Every page holds `floor((pageHeight - 2·40 - header) / rowHeight)` rows, with an
  A4 default of 1123 px. The table widget uses this variant.
- **Visibility test** (`src/utils/pagination.ts`, `isTableVisible`). A widget
  shows on the page whose half-open Y range contains its top.

Modules:

- `JsMath` (`js_math.dfy`): JavaScript's `Math.floor(a / b)`, `Math.ceil(a / b)`
  and `%`, modelled on integers. Dafny's `/` and `%` are Euclidean, so each one is
  written out for the sign of its divisor.
- `Outcomes` (`outcomes.dfy`): the `InvalidGeometry` outcome.
- `RowRanges` (`row_ranges.dfy`): half-open row ranges. It shows that a chain of
  contiguous ranges partitions the rows it spans.
- `PdfMode` (`pdf_mode.dfy`): the page geometry and the top-aware paginator.
- `Pagination` (`pagination.dfy`): the uniform paginator and the visibility test.
- `Variants` (`variants.dfy`): how the two paginators and the two page heights
  relate.

Pixel values are integers. Both paginators take the page height (and, for the PDF
view, all the page dimensions) as a parameter. So the source's constants are instances:
`PdfMode.PdfPage` and `Pagination.A4HeightPx`. JavaScript divides by zero without
failing. A row height of 0 (the "not measured yet" value) or a page that holds 0
rows makes a division by zero. The uniform paginator then returns `NaN` or
`Infinity` in its result. The PDF-view paginator mostly does too, but with row
height 0 and room below the table's top its page 1 is finite (see Left out). The
plain paginators require geometry with no division by zero, and
`TryPaginateTable` / `TryCalculateTablePagination` return `InvalidGeometry` in
exactly those cases.

Behaviour of the code worth knowing, which the model keeps:

- The code does not clamp the first page's row count at zero. A table whose top
  leaves no room for its header gets a negative count, and then page ranges that
  start or end at negative row indices. The clamped version is kept as the
  corrected definition; see Findings.
- For a Letter page with header 30 and rows 25, a continuation page holds
  `floor(946 / 25) = 37` rows. For the table at `top = 1000` with 100 rows, the
  code computes a first-page count of -1 and 4 pages.
- The uniform paginator gives an empty table 0 pages.
- Neither paginator clamps a page number past the last page. Such a page gets
  `endRow == totalRows <= startRow`.

## Model

| member | source | states |
|---|---|---|
| `PdfMode.PageForY` | src/utils/pdfMode.ts:9-11 | the page `p` brackets `y` between `(p-1)·height` and `p·height`; `p >= 1` exactly when `y >= 0` |
| `PdfMode.RelativeY` | src/utils/pdfMode.ts:14-16 | for `y >= 0` the offset lies in `[0, height)` and page start plus offset gives back `y`; above the canvas the offset lies in `(-height, 0]` |
| `PdfMode.PageForYMonotone` | src/utils/pdfMode.ts:9-11 | a larger `y` never gets an earlier page |
| `PdfMode.LetterPageBoundaries` | src/utils/pdfMode.ts:2-16 | on the Letter page, `y = 0` and `y = 1055` are on page 1, `y = 1056` is on page 2 at offset 0 |
| `PdfMode.NegativeYSplitsOffByOnePage` | src/utils/pdfMode.ts:9-16 | for negative `y` that is not a multiple of the height, page start plus offset is one page short of `y` (floored page, truncated remainder) |
| `PdfMode.RowsPerFullPage` | src/utils/pdfMode.ts:49 | the header plus `n` rows fit between the two margins and `n + 1` rows do not; it depends on page, header and row height only |
| `PdfMode.FirstPageRows` | src/utils/pdfMode.ts:45-50 | `n` rows fit in the room below the table's top, after the header and the bottom margin, and `n + 1` do not (`n` may be negative) |
| `PdfMode.TotalPages` | src/utils/pdfMode.ts:53-55 | with positive capacity, at least one page; exactly one when the rows fit on the first page; otherwise the fewest continuation pages that hold the remaining rows |
| `PdfMode.PaginateRows` | src/utils/pdfMode.ts:52-79 | first-page flag exactly on page 1, last-page flag exactly on page `totalPages`, `endRow <= totalRows`, page 1 is `[0, min(firstPageRows, totalRows))` |
| `PdfMode.PaginateTable` | src/utils/pdfMode.ts:34-80 | the same flags and bound for a positioned table; with positive capacity, `totalPages >= 1` and `totalPages == 1` exactly when the rows fit on the first page |
| `PdfMode.PaginateTableClamped` | src/utils/pdfMode.ts:48-71 | corrected paginator (first-page count clamped at 0): equals `PaginateTable` whenever that count is non-negative; page 1 starts at 0 and does not end before it starts |
| `PdfMode.TryPaginateTable` | src/utils/pdfMode.ts:49-54 | `InvalidGeometry` exactly when JavaScript would divide by zero (row height 0 or capacity 0); otherwise the paginator's result |
| `PdfMode.SlicesContiguous` | src/utils/pdfMode.ts:58-71 | for pages `1 <= k < totalPages`, page `k` ends where page `k + 1` starts |
| `PdfMode.RowOnExactlyOnePage` | src/utils/pdfMode.ts:48-71 | every row in `[0, totalRows)` lies in the slice of exactly one page `k >= 1`, given by `RowPage`, and that page is at most `totalPages` |
| `PdfMode.ContinuationPagesNonEmpty` | src/utils/pdfMode.ts:53-71 | every continuation page from 2 to `totalPages` is a non-empty index range `startRow < endRow` (with a negative first-page count the range can lie below row 0) |
| `PdfMode.LastPageEndsAtTotal` | src/utils/pdfMode.ts:53-71 | page `totalPages` ends exactly at `totalRows` |
| `PdfMode.LastPageIffReachesTotal` | src/utils/pdfMode.ts:53-77 | among pages `1..totalPages`, `endRow == totalRows` exactly on the page flagged last |
| `PdfMode.PagesBeyondLastAreEmpty` | src/utils/pdfMode.ts:69-71 | a page past `totalPages` has `endRow == totalRows <= startRow` |
| `PdfMode.SliceWithinRows` | src/utils/pdfMode.ts:48-71 | with a non-negative first-page count, each of pages `1..totalPages` is a range `0 <= startRow <= endRow <= totalRows` |
| `PdfMode.ContinuationStrideIgnoresTopAndRows` | src/utils/pdfMode.ts:49-71 | the row step between consecutive continuation pages is the same for any table top, row count and page number |
| `PdfMode.PageRanges` | src/utils/pdfMode.ts:58-79 | the list has one range per page `1..k`, in page order, each the slice the paginator returns for that page |
| `PdfMode.PagesPartitionRows` | src/utils/pdfMode.ts:48-71 | with a non-negative first-page count, the ranges of pages `1..totalPages` cover exactly the rows `[0, totalRows)` and no row lies on two pages |
| `PdfMode.PageRangesChained` | src/utils/pdfMode.ts:53-71 | with a non-negative first-page count, the ranges of pages `1..totalPages` are well-formed, each starts where the previous one ends, the first starts at row 0 and the last ends at `totalRows` |
| `PdfMode.ClampedPagesPartitionRows` | src/utils/pdfMode.ts:48-71 | for every table top, the list holds the corrected paginator's slice for each of its pages `1..totalPages`, and those slices cover exactly `[0, totalRows)` with no row on two pages |
| `PdfMode.ClampedContinuationPagesHoldRows` | src/utils/pdfMode.ts:53-71 | for every table top, each continuation page of the corrected paginator up to `totalPages` is a non-empty range within `[0, totalRows]`, so it shows at least one row |
| `PdfMode.ClampedSliceWithinRows` | src/utils/pdfMode.ts:48-71 | for every table top, the corrected paginator's slices on pages `1..totalPages` are ranges within `[0, totalRows]` |
| `PdfMode.TableAtTopFitsOnOnePage` | src/utils/pdfMode.ts:41-66 | a table at `top = 0` (header 30, rows 25) fits 39 rows on its first page, so 10 rows give one page `[0, 10)` that is both first and last |
| `PdfMode.TableNearPageBottomGoesNegative` | src/utils/pdfMode.ts:45-71 | at `top = 1000` the first-page count is -1 and capacity is 37: page 1 is `[0, -1)`, page 2 is `[-1, 36)`, and there are 4 pages |
| `PdfMode.TableAtPageBottomBlankContinuationPage` | src/utils/pdfMode.ts:45-71 | at `top = 1055` with header 500 and 1 px rows, the first-page count is -539: page 2 of a 10-row table is `[-539, -63)`, which holds no row, and page 3 is `[-63, 10)` of 3 pages |
| `PdfMode.EmptyTableNearPageBottomGetsTwoPages` | src/utils/pdfMode.ts:45-71 | an empty table at `top = 1000` gets 2 pages: page 1 is `[0, -1)` and page 2 is `[-1, 0)` |
| `PdfMode.TableNearPageBottomClamped` | src/utils/pdfMode.ts:48-71 | the corrected paginator gives the same table an empty page 1 `[0, 0)` and page 2 `[0, 37)` |
| `Pagination.RowsPerPage` | src/utils/pagination.ts:28-30 | the header plus `n` rows fit between the two 40 px margins and `n + 1` rows do not |
| `Pagination.CalculateTablePagination` | src/utils/pagination.ts:23-42 | `rowsPerPage` depends on page height, header and row height only; `endRow <= totalRows`; `totalPages` is the fewest pages that hold all rows, and 0 exactly for an empty table |
| `Pagination.TryCalculateTablePagination` | src/utils/pagination.ts:30-32 | `InvalidGeometry` exactly when JavaScript would divide by zero; otherwise the paginator's result |
| `Pagination.SlicesContiguous` | src/utils/pagination.ts:32-34 | for pages `1 <= k < totalPages`, page `k` ends where page `k + 1` starts |
| `Pagination.RowOnExactlyOnePage` | src/utils/pagination.ts:32-34 | every row in `[0, totalRows)` lies in the slice of exactly one page `k >= 1`, namely `row / rowsPerPage + 1`, which is at most `totalPages` |
| `Pagination.SliceNonEmptyIffTablePage` | src/utils/pagination.ts:32-34 | for `k >= 1`, page `k` holds a row exactly when `k <= totalPages` |
| `Pagination.PagesBeyondLastAreEmpty` | src/utils/pagination.ts:32-34 | a page past `totalPages` has `endRow == totalRows <= startRow` |
| `Pagination.LastPageEndsAtTotal` | src/utils/pagination.ts:32-34 | a non-empty table's page `totalPages` ends exactly at `totalRows` |
| `Pagination.SliceWithinRows` | src/utils/pagination.ts:32-34 | each of pages `1..totalPages` is a non-empty range `0 <= startRow < endRow <= totalRows` |
| `Pagination.PageRanges` | src/utils/pagination.ts:32-34 | the list has one range per page `1..k`, in page order, each the slice the paginator returns for that page |
| `Pagination.PagesPartitionRows` | src/utils/pagination.ts:32-34 | for a table of `n >= 0` rows, the ranges of pages `1..totalPages` cover exactly the rows `[0, n)` and no row lies on two pages |
| `Pagination.EmptyTableHasNoPages` | src/utils/pagination.ts:32-34 | a table with no rows has 0 pages, and its page 1 is `[0, 0)` |
| `Pagination.IsTableVisible` | src/utils/pagination.ts:44-52 | with a positive page height, the widget is visible on `currentPage` exactly when `currentPage == floor(y / pageHeight) + 1` |
| `Pagination.A4PageBoundaries` | src/utils/pagination.ts:44-52 | with the 1123 px A4 default, rows 0 and 1122 are visible on page 1 and row 1123 is visible on page 2, not page 1 |
| `RowRanges.ChainCoversSpan` | src/utils/pdfMode.ts:58-71 | a chain of well-formed row ranges, each starting where the previous one ends, covers exactly the rows from the first start to the last end (the argument behind both paginators' partitions) |
| `RowRanges.ChainIsDisjoint` | src/utils/pdfMode.ts:58-71 | in such a chain every row lies in at most one range, and in exactly one when it is covered at all |
| `Variants.FullPageCapacitiesAgree` | src/utils/pdfMode.ts:49 | with the same page height and the 40 px margin, a PDF-view continuation page and a uniform page hold the same number of rows |
| `Variants.VisibilityMatchesPageForY` | src/utils/pagination.ts:44-52 | on pages of the same height, `isTableVisible(pos, p)` holds exactly when `p == getPageForY(pos.y)` |
| `Variants.DefaultPageHeightsDisagree` | src/utils/pagination.ts:20-21 | with each file's default, canvas row 1100 is on Letter page 2 but visible on A4 page 1 |
| `Variants.VariantsAgreeAtTopMargin` | src/utils/pagination.ts:23-42 | for a table whose top sits on a page's top margin, both paginators give every page the same slice; their page counts agree except on an empty table (1 vs 0) |

## Left out

- `src/components/Table.tsx`, `src/components/Workbook.tsx` and `src/App.tsx` are not part of this model. They are React UI: DOM measurement of row and header heights, drag-and-drop and resize handlers, random dummy rows, URL parameters and page buttons. Their only use of the core is `isTableVisible` and the uniform `calculateTablePagination`, and both are modelled.
- `src/utils/pdfExport.ts` is not part of this model. It is an asynchronous wrapper over an external PDF renderer (pure I/O).
- Floating point: measured heights are fractional pixels in the browser. The model uses integer pixels throughout.
- Non-finite results: where a division by zero gives `Infinity` or `NaN`, the `Try*` functions return `InvalidGeometry` instead of modelling JavaScript's non-finite numbers. `PaginateTable` and `CalculateTablePagination` require geometry with no division by zero.
- PdfMode.TryPaginateTable: with row height 0, JavaScript's result is not always non-finite. When the table's top leaves room for its header and a full page has room for one, both row counts are `Infinity`, `remainingRows` is `-Infinity`, and `Math.ceil(0 / Infinity)` gives one page. Page 1 is then the finite result `{startRow: 0, endRow: totalRows, isFirstPage: true, isLastPage: true, totalPages: 1}`: every row on a single page. Only pages 2 and later get `NaN`. The model reports `InvalidGeometry` for every call with row height 0, because integers cannot carry `Infinity`.
- A negative row height gives finite numbers in JavaScript, and the model computes them with floor semantics. The lemmas only speak of a positive capacity, because that is the only case the pages partition the rows.
- The page width (`PDF_PAGE.WIDTH`, 816) and the table's width and height are carried in the datatypes but never used, as in the source.
- Determinism needs no lemma: every operation is a pure function, so two calls with equal inputs are equal.

## Findings

| source | as written | input that shows it | evidently intended | confidence | as-written member | corrected member |
|---|---|---|---|---|---|---|
| src/utils/pdfMode.ts:50 | `firstPageRows = floor((available - header) / rowHeight)`, with no lower bound | Letter page, `top = 1000`, header 30, rows 25, 100 rows: `firstPageRows = -1`, page 1 is `[0, -1)` and page 2 starts at row -1 | clamp the first page's count at zero, so every slice stays within `[0, totalRows]` | not executed; the arithmetic is proved | `PdfMode.TableNearPageBottomGoesNegative` | `PdfMode.PaginateTableClamped` |
| src/utils/pdfMode.ts:50 | the same unclamped count can leave a whole continuation page without a row | Letter page, `top = 1055`, header 500, 1 px rows, 10 rows: `firstPageRows = -539`, page 2 is `[-539, -63)` and shows no row; page 3 shows all ten | every continuation page up to `totalPages` shows at least one row | not executed; the arithmetic is proved | `PdfMode.TableAtPageBottomBlankContinuationPage` | `PdfMode.ClampedContinuationPagesHoldRows` |

The partition of the rows under the corrected paginator is `PdfMode.ClampedPagesPartitionRows`.

=== FILE: js_math.dfy ===
/** Integer versions of the JavaScript arithmetic the pagination code relies on:
    `Math.floor(a / b)`, `Math.ceil(a / b)` and the remainder operator `a % b`.
    Dafny's own `/` and `%` are Euclidean, so each JavaScript operator is written
    out for both signs of its divisor. A zero divisor makes JavaScript produce
    `Infinity` or `NaN`; here it is excluded by a precondition and the callers
    report it as an invalid geometry instead. */
module JsMath {

  /** `Math.min` and `Math.max` on two integers. */
  function Min(a: int, b: int): (m: int)
    ensures m <= a && m <= b
    ensures m == a || m == b
  {
    if a <= b then a else b
  }

  function Max(a: int, b: int): (m: int)
    ensures m >= a && m >= b
    ensures m == a || m == b
  {
    if a >= b then a else b
  }

  /** `Math.floor(a / b)`: the greatest integer not above the real quotient. */
  function Floor(a: int, b: int): (q: int)
    requires b != 0
    ensures b > 0 ==> b * q <= a < b * q + b
    ensures b < 0 ==> b * q + b < a <= b * q
  {
    if b > 0 then a / b else (-a) / (-b)
  }

  /** `Math.ceil(a / b)`: the least integer not below the real quotient. */
  function Ceil(a: int, b: int): (q: int)
    requires b != 0
    ensures b > 0 ==> b * q - b < a <= b * q
    ensures b < 0 ==> b * q <= a < b * q - b
  {
    -Floor(-a, b)
  }

  /** The JavaScript remainder `a % b` for a positive divisor: it takes the
      sign of the dividend, its magnitude stays below the divisor, and it is
      what is left after the quotient truncated toward zero. */
  function Rem(a: int, b: int): (r: int)
    requires b > 0
    ensures a >= 0 ==> 0 <= r < b && r == a - b * Floor(a, b)
    ensures a < 0 ==> -b < r <= 0 && r == a - b * Ceil(a, b)
  {
    if a >= 0 then a % b else -((-a) % b)
  }

  /** The floor quotient is the unique integer bracketing `a` between two
      consecutive multiples of a positive `b`. */
  lemma FloorUnique(a: int, b: int, q: int)
    requires b > 0
    requires b * q <= a < b * q + b
    ensures Floor(a, b) == q
  {
    var f := Floor(a, b);
    if f < q {
      MulLe(b, f + 1, q);
    } else if f > q {
      MulLe(b, q + 1, f);
    }
  }

  /** So `a` lies between the consecutive multiples `b * q` and `b * q + b`
      exactly when `q` is the floor quotient. */
  lemma FloorBlock(a: int, b: int, q: int)
    requires b > 0
    ensures b * q <= a < b * q + b <==> q == Floor(a, b)
  {
    if b * q <= a < b * q + b {
      FloorUnique(a, b, q);
    }
  }

  /** Likewise the ceiling quotient for a positive `b`. */
  lemma CeilUnique(a: int, b: int, q: int)
    requires b > 0
    requires b * q - b < a <= b * q
    ensures Ceil(a, b) == q
  {
    var c := Ceil(a, b);
    if c < q {
      MulLe(b, c, q - 1);
    } else if c > q {
      MulLe(b, q, c - 1);
    }
  }

  /** The ceiling quotient of a non-negative dividend is non-negative, and
      zero only for a zero dividend. */
  lemma CeilOfNonNegative(a: int, b: int)
    requires b > 0 && a >= 0
    ensures Ceil(a, b) >= 0
    ensures Ceil(a, b) == 0 <==> a == 0
  {
    var q := Ceil(a, b);
    MulLeInv(b, 0, q);
    if a == 0 && q != 0 {
      MulLe(b, 1, q);
    }
  }

  /** Multiplication by a positive factor preserves order. */
  lemma MulLe(b: int, x: int, y: int)
    requires b > 0
    requires x <= y
    ensures b * x <= b * y
  {
    assert b * y - b * x == b * (y - x);
  }

  /** The converse: an ordered pair of multiples of a positive `b` has ordered
      factors. */
  lemma MulLeInv(b: int, x: int, y: int)
    requires b > 0
    requires b * x <= b * y
    ensures x <= y
  {
    if x > y {
      MulLe(b, y + 1, x);
    }
  }
}

=== FILE: outcomes.dfy ===
/** The result of a pagination call made with measured geometry. */
module Outcomes {

  /** `InvalidGeometry` stands for the calls where JavaScript would divide by
      zero: a row height that is still the unmeasured sentinel 0, or a page
      that holds no row. Most such calls yield `Infinity` or `NaN` somewhere
      in the result; a few still come out finite, and the model reports all
      of them the same way. */
  datatype Checked<T> = Ok(value: T) | InvalidGeometry
}

=== FILE: pagination.dfy ===
/** The uniform paginator and the page-visibility test that the table widget
    and the workbook use (src/utils/pagination.ts). Every page of a table
    holds the same number of rows, whatever the table's position; a widget is
    shown on the page whose vertical range contains its top. */
module Pagination {
  import opened JsMath
  import opened Outcomes
  import RowRanges

  /** The default page height: A4 (297 mm) at 96 DPI. */
  const A4HeightPx := 1123

  /** The margin at the top and at the bottom of every page. */
  const PageMargin := 40

  /** Measured header and row heights, and the widget's size (unused by the
      paginator). */
  datatype TableDimensions = TableDimensions(headerHeight: int, rowHeight: int, width: int, height: int)

  /** The table's row count and the page being rendered (1-based). */
  datatype TableContent = TableContent(totalRows: int, currentPage: int)

  /** Rows per page, the table's page count, and the rows `[startRow, endRow)`
      of the requested page. */
  datatype PaginationResult = PaginationResult(rowsPerPage: int, totalPages: int, startRow: int, endRow: int)

  /** A widget's absolute position on the canvas. */
  datatype Position = Position(x: int, y: int)

  /** Rows that fit on a page below the header, between the two margins. */
  function RowsPerPage(pageHeight: int, headerHeight: int, rowHeight: int): (n: int)
    requires rowHeight != 0
    ensures rowHeight > 0 ==>
      n * rowHeight <= pageHeight - 2 * PageMargin - headerHeight < (n + 1) * rowHeight
  {
    var availableHeight := pageHeight - PageMargin * 2;
    var contentHeight := availableHeight - headerHeight;
    Floor(contentHeight, rowHeight)
  }

  /** The geometry is usable when JavaScript's divisions stay finite: a
      measured (non-zero) row height and a page that holds a non-zero number
      of rows. */
  predicate FiniteGeometry(dims: TableDimensions, pageHeight: int)
  {
    dims.rowHeight != 0 && RowsPerPage(pageHeight, dims.headerHeight, dims.rowHeight) != 0
  }

  /** `calculateTablePagination` for a page of height `pageHeight`. */
  function CalculateTablePagination(dims: TableDimensions, content: TableContent, pageHeight: int): (r: PaginationResult)
    requires FiniteGeometry(dims, pageHeight)
    ensures r.rowsPerPage == RowsPerPage(pageHeight, dims.headerHeight, dims.rowHeight)
    ensures r.endRow <= content.totalRows
    ensures r.endRow <= r.startRow + r.rowsPerPage
    ensures r.rowsPerPage > 0 ==>
      r.totalPages * r.rowsPerPage - r.rowsPerPage < content.totalRows <= r.totalPages * r.rowsPerPage
    ensures r.rowsPerPage > 0 && content.totalRows >= 0 ==>
      r.totalPages >= 0 && (r.totalPages == 0 <==> content.totalRows == 0)
  {
    var rowsPerPage := RowsPerPage(pageHeight, dims.headerHeight, dims.rowHeight);
    var totalPages := Ceil(content.totalRows, rowsPerPage);
    var startRow := (content.currentPage - 1) * rowsPerPage;
    var endRow := Min(startRow + rowsPerPage, content.totalRows);
    assert rowsPerPage > 0 && content.totalRows >= 0 ==>
      totalPages >= 0 && (totalPages == 0 <==> content.totalRows == 0) by {
      if rowsPerPage > 0 && content.totalRows >= 0 { CeilOfNonNegative(content.totalRows, rowsPerPage); }
    }
    PaginationResult(rowsPerPage, totalPages, startRow, endRow)
  }

  /** The paginator with the division-by-zero cases reported instead of
      producing non-finite numbers. */
  function TryCalculateTablePagination(dims: TableDimensions, content: TableContent, pageHeight: int): (r: Checked<PaginationResult>)
    ensures r.InvalidGeometry? <==> !FiniteGeometry(dims, pageHeight)
    ensures r.Ok? ==> r.value == CalculateTablePagination(dims, content, pageHeight)
  {
    if FiniteGeometry(dims, pageHeight) then Ok(CalculateTablePagination(dims, content, pageHeight))
    else InvalidGeometry
  }

  /** `isTableVisible`: the widget's top lies in the page's half-open range.
      For a positive page height that range belongs to exactly one page, the
      one `Math.floor(y / pageHeight) + 1` names. */
  function IsTableVisible(position: Position, currentPage: int, pageHeight: int): (visible: bool)
    ensures pageHeight > 0 ==> (visible <==> currentPage == Floor(position.y, pageHeight) + 1)
  {
    var startY := (currentPage - 1) * pageHeight;
    var endY := startY + pageHeight;
    assert pageHeight > 0 ==>
      (position.y >= startY && position.y < endY <==> currentPage == Floor(position.y, pageHeight) + 1) by {
      if pageHeight > 0 {
        assert startY == pageHeight * (currentPage - 1);
        FloorBlock(position.y, pageHeight, currentPage - 1);
      }
    }
    position.y >= startY && position.y < endY
  }

  // ---------------------------------------------------------------------------
  // Partition of the rows over the pages
  // ---------------------------------------------------------------------------

  /** The slice of page `k` for a table of `n` rows, on a page of height `h`. */
  function PageSlice(dims: TableDimensions, n: int, k: int, h: int): (r: PaginationResult)
    requires FiniteGeometry(dims, h)
  {
    CalculateTablePagination(dims, TableContent(n, k), h)
  }

  /** Consecutive pages meet: each page ends where the next one starts. */
  lemma SlicesContiguous(dims: TableDimensions, n: int, k: int, h: int)
    requires FiniteGeometry(dims, h)
    requires RowsPerPage(h, dims.headerHeight, dims.rowHeight) > 0
    requires 1 <= k < PageSlice(dims, n, k, h).totalPages
    ensures PageSlice(dims, n, k, h).endRow == PageSlice(dims, n, k + 1, h).startRow
  {
    var R := RowsPerPage(h, dims.headerHeight, dims.rowHeight);
    var t := PageSlice(dims, n, k, h).totalPages;
    MulLe(R, k, t - 1);
    assert R * (t - 1) == t * R - R;
    assert k * R <= n;
    assert (k - 1) * R + R == k * R;
  }

  /** Every row lies in the slice of exactly one page, page `row / rowsPerPage + 1`,
      and that page is among the table's pages. */
  lemma RowOnExactlyOnePage(dims: TableDimensions, n: int, row: int, k: int, h: int)
    requires FiniteGeometry(dims, h)
    requires RowsPerPage(h, dims.headerHeight, dims.rowHeight) > 0
    requires 0 <= row < n
    requires k >= 1
    ensures var R := RowsPerPage(h, dims.headerHeight, dims.rowHeight);
      1 <= Floor(row, R) + 1 <= PageSlice(dims, n, k, h).totalPages
    ensures var R := RowsPerPage(h, dims.headerHeight, dims.rowHeight);
      var s := PageSlice(dims, n, k, h);
      s.startRow <= row < s.endRow <==> k == Floor(row, R) + 1
  {
    var R := RowsPerPage(h, dims.headerHeight, dims.rowHeight);
    var s := PageSlice(dims, n, k, h);
    UniformRowOnPage(R, n, s.totalPages, row, k);
  }

  /** The arithmetic behind `RowOnExactlyOnePage`, for a page count `t` that
      is the least one whose pages hold all `n` rows. */
  lemma UniformRowOnPage(R: int, n: int, t: int, row: int, k: int)
    requires R > 0
    requires t * R - R < n <= t * R
    requires 0 <= row < n
    requires k >= 1
    ensures 1 <= Floor(row, R) + 1 <= t
    ensures (k - 1) * R <= row < Min((k - 1) * R + R, n) <==> k == Floor(row, R) + 1
  {
    var q := Floor(row, R);
    MulLeInv(R, 0, q + 1);
    if q >= t {
      MulLe(R, t, q);
    }
    assert (k - 1) * R == R * (k - 1);
    if k == q + 1 {
      assert R * q + R == (k - 1) * R + R;
    } else if (k - 1) * R <= row < Min((k - 1) * R + R, n) {
      assert R * (k - 1) + R == (k - 1) * R + R;
      FloorUnique(row, R, k - 1);
    }
  }

  /** A page of the table (from 1 to the page count) shows at least one row,
      and no other page from 1 on does. */
  lemma SliceNonEmptyIffTablePage(dims: TableDimensions, n: int, k: int, h: int)
    requires FiniteGeometry(dims, h)
    requires RowsPerPage(h, dims.headerHeight, dims.rowHeight) > 0
    requires k >= 1
    ensures var s := PageSlice(dims, n, k, h);
      s.startRow < s.endRow <==> k <= s.totalPages
  {
    var R := RowsPerPage(h, dims.headerHeight, dims.rowHeight);
    var s := PageSlice(dims, n, k, h);
    UniformPageNonEmpty(R, n, s.totalPages, k);
  }

  lemma UniformPageNonEmpty(R: int, n: int, t: int, k: int)
    requires R > 0
    requires t * R - R < n <= t * R
    requires k >= 1
    ensures (k - 1) * R < Min((k - 1) * R + R, n) <==> k <= t
  {
    if k <= t {
      MulLe(R, k - 1, t - 1);
      assert R * (t - 1) == t * R - R;
      assert (k - 1) * R == R * (k - 1);
    } else {
      MulLe(R, t, k - 1);
      assert (k - 1) * R == R * (k - 1);
    }
  }

  /** Pages past the last one start at or beyond the last row and end at it. */
  lemma PagesBeyondLastAreEmpty(dims: TableDimensions, n: int, k: int, h: int)
    requires FiniteGeometry(dims, h)
    requires RowsPerPage(h, dims.headerHeight, dims.rowHeight) > 0
    requires k > PageSlice(dims, n, k, h).totalPages
    ensures var s := PageSlice(dims, n, k, h);
      s.endRow == n <= s.startRow
  {
    var R := RowsPerPage(h, dims.headerHeight, dims.rowHeight);
    var t := PageSlice(dims, n, k, h).totalPages;
    MulLe(R, t, k - 1);
  }

  /** The last page of a non-empty table ends exactly at its last row. */
  lemma LastPageEndsAtTotal(dims: TableDimensions, n: int, h: int)
    requires FiniteGeometry(dims, h)
    requires RowsPerPage(h, dims.headerHeight, dims.rowHeight) > 0
    requires n > 0
    ensures var t := PageSlice(dims, n, 1, h).totalPages;
      PageSlice(dims, n, t, h).endRow == n
  {
    var R := RowsPerPage(h, dims.headerHeight, dims.rowHeight);
    var t := PageSlice(dims, n, 1, h).totalPages;
    assert (t - 1) * R + R == t * R;
  }

  /** Among the table's pages the slice is a well-formed range of existing rows. */
  lemma SliceWithinRows(dims: TableDimensions, n: int, k: int, h: int)
    requires FiniteGeometry(dims, h)
    requires RowsPerPage(h, dims.headerHeight, dims.rowHeight) > 0
    requires 1 <= k <= PageSlice(dims, n, k, h).totalPages
    ensures var s := PageSlice(dims, n, k, h);
      0 <= s.startRow < s.endRow <= n
  {
    var R := RowsPerPage(h, dims.headerHeight, dims.rowHeight);
    MulLe(R, 0, k - 1);
    SliceNonEmptyIffTablePage(dims, n, k, h);
  }

  /** The row ranges of pages `1..k`, in page order. */
  function PageRanges(dims: TableDimensions, n: int, k: nat, h: int): (rs: seq<RowRanges.RowRange>)
    requires FiniteGeometry(dims, h)
    ensures |rs| == k
    ensures forall j :: 0 <= j < k ==>
      rs[j] == RowRanges.RowRange(PageSlice(dims, n, j + 1, h).startRow, PageSlice(dims, n, j + 1, h).endRow)
  {
    if k == 0 then []
    else
      var s := PageSlice(dims, n, k, h);
      PageRanges(dims, n, k - 1, h) + [RowRanges.RowRange(s.startRow, s.endRow)]
  }

  /** The pages `1..totalPages` partition the rows: every row in
      `[0, totalRows)` is on exactly one of them, and nothing else is on any
      of them. */
  lemma PagesPartitionRows(dims: TableDimensions, n: int, h: int, row: int)
    requires FiniteGeometry(dims, h)
    requires RowsPerPage(h, dims.headerHeight, dims.rowHeight) > 0
    requires n >= 0
    ensures var rs := PageRanges(dims, n, PageSlice(dims, n, 1, h).totalPages, h);
      && (RowRanges.Covered(rs, row) <==> 0 <= row < n)
      && RowRanges.Multiplicity(rs, row) <= 1
  {
    var t := PageSlice(dims, n, 1, h).totalPages;
    var rs := PageRanges(dims, n, t, h);
    if n > 0 {
      forall j | 0 <= j < t
        ensures rs[j].startRow <= rs[j].endRow
      {
        SliceWithinRows(dims, n, j + 1, h);
      }
      forall j | 0 < j < t
        ensures rs[j - 1].endRow == rs[j].startRow
      {
        SlicesContiguous(dims, n, j, h);
      }
      LastPageEndsAtTotal(dims, n, h);
      RowRanges.ChainCoversSpan(rs, row);
    }
    RowRanges.ChainIsDisjoint(rs, row);
  }

  // ---------------------------------------------------------------------------
  // Visibility
  // ---------------------------------------------------------------------------

  /** The default A4 page: page 1 covers the canvas rows 0 to 1122. */
  lemma A4PageBoundaries()
    ensures IsTableVisible(Position(0, 0), 1, A4HeightPx)
    ensures IsTableVisible(Position(0, 1122), 1, A4HeightPx)
    ensures !IsTableVisible(Position(0, 1123), 1, A4HeightPx)
    ensures IsTableVisible(Position(0, 1123), 2, A4HeightPx)
  {
  }

  /** An empty table has no pages at all, and its first page shows nothing. */
  lemma EmptyTableHasNoPages(dims: TableDimensions, h: int)
    requires FiniteGeometry(dims, h)
    requires RowsPerPage(h, dims.headerHeight, dims.rowHeight) > 0
    ensures PageSlice(dims, 0, 1, h).totalPages == 0
    ensures PageSlice(dims, 0, 1, h).startRow == PageSlice(dims, 0, 1, h).endRow == 0
  {
  }
}

=== FILE: pdf_mode.dfy ===
/** Page geometry and the top-aware table paginator of the PDF view
    (src/utils/pdfMode.ts). The canvas is an unbounded vertical strip cut into
    pages of a fixed height; a table whose top lies somewhere on a page gets a
    short first page and then full continuation pages, each repeating the
    header between a top and a bottom margin. */
module PdfMode {
  import opened JsMath
  import opened Outcomes
  import RowRanges

  /** Page dimensions in CSS pixels at 96 DPI. */
  datatype PageSpec = PageSpec(width: int, height: int, margin: int)

  /** US Letter: 8.5 by 11 inches with a 40 pixel margin on each side. */
  const PdfPage := PageSpec(816, 1056, 40)

  // ---------------------------------------------------------------------------
  // Coordinates
  // ---------------------------------------------------------------------------

  /** The 1-based page an absolute canvas Y coordinate falls on. */
  function PageForY(page: PageSpec, y: int): (p: int)
    requires page.height > 0
    ensures (p - 1) * page.height <= y < p * page.height
    ensures p >= 1 <==> y >= 0
  {
    var q := Floor(y, page.height);
    assert q + 1 >= 1 <==> y >= 0 by {
      if q < 0 { MulLe(page.height, q + 1, 0); } else { MulLe(page.height, 0, q); }
    }
    q + 1
  }

  /** The offset of an absolute Y coordinate from the top of its page. The
      JavaScript remainder keeps the sign of `y`, so above the canvas (negative
      `y`) the offset is non-positive. */
  function RelativeY(page: PageSpec, y: int): (r: int)
    requires page.height > 0
    ensures y >= 0 ==> 0 <= r < page.height
    ensures y >= 0 ==> (PageForY(page, y) - 1) * page.height + r == y
    ensures y < 0 ==> -page.height < r <= 0
  {
    Rem(y, page.height)
  }

  /** Moving down the canvas never moves back a page. */
  lemma PageForYMonotone(page: PageSpec, y1: int, y2: int)
    requires page.height > 0
    requires y1 <= y2
    ensures PageForY(page, y1) <= PageForY(page, y2)
  {
    var p1, p2 := PageForY(page, y1), PageForY(page, y2);
    if p1 > p2 {
      MulLe(page.height, p2, p1 - 1);
    }
  }

  /** Page boundaries of the Letter page: the last pixel row of page 1 is 1055. */
  lemma LetterPageBoundaries()
    ensures PageForY(PdfPage, 0) == 1
    ensures PageForY(PdfPage, 1055) == 1
    ensures PageForY(PdfPage, 1056) == 2
    ensures RelativeY(PdfPage, 1056) == 0
  {
  }

  /** Above the canvas the page/offset pair no longer adds up to `y`: the
      floored page and the truncated offset disagree by one whole page unless
      `y` is a multiple of the page height. */
  lemma NegativeYSplitsOffByOnePage(page: PageSpec, y: int)
    requires page.height > 0
    requires y < 0
    requires RelativeY(page, y) != 0
    ensures (PageForY(page, y) - 1) * page.height + RelativeY(page, y) == y - page.height
  {
    var h := page.height;
    var c := Ceil(y, h);
    var f := Floor(y, h);
    assert RelativeY(page, y) == y - h * c;
    if f != c - 1 {
      if f >= c {
        MulLe(h, c, f);
      } else {
        MulLe(h, f + 1, c - 1);
      }
    }
    assert h * (c - 1) == h * c - h;
  }

  // ---------------------------------------------------------------------------
  // Table pagination
  // ---------------------------------------------------------------------------

  /** A table instance: its absolute top, its rendered height, and the measured
      height of one data row and of the header. */
  datatype TableDimensions = TableDimensions(top: int, height: int, rowHeight: int, headerHeight: int)

  /** The table's row count and the page being rendered (1-based). */
  datatype PageRequest = PageRequest(totalRows: int, currentPage: int)

  /** The rows `[startRow, endRow)` shown on the requested page, and where that
      page stands among the table's pages. */
  datatype PaginationResult = PaginationResult(
    startRow: int,
    endRow: int,
    isFirstPage: bool,
    isLastPage: bool,
    totalPages: int)

  /** Rows that fit on a continuation page: the header and the rows between
      the top and bottom margins. */
  function RowsPerFullPage(page: PageSpec, headerHeight: int, rowHeight: int): (n: int)
    requires rowHeight != 0
    ensures rowHeight > 0 ==>
      n * rowHeight <= page.height - headerHeight - 2 * page.margin < (n + 1) * rowHeight
  {
    Floor(page.height - headerHeight - page.margin * 2, rowHeight)
  }

  /** Rows that fit on the first page below the table's top, leaving room for
      the header and the bottom margin. Nothing clamps it at zero: a table
      whose top sits within header-plus-margin of the page bottom gets a
      negative count. */
  function FirstPageRows(page: PageSpec, dims: TableDimensions): (n: int)
    requires page.height > 0
    requires dims.rowHeight != 0
    ensures dims.rowHeight > 0 ==>
      var room := page.height - RelativeY(page, dims.top) - page.margin - dims.headerHeight;
      n * dims.rowHeight <= room < (n + 1) * dims.rowHeight
  {
    var startY := RelativeY(page, dims.top);
    var firstPageAvailableHeight := page.height - startY - page.margin;
    Floor(firstPageAvailableHeight - dims.headerHeight, dims.rowHeight)
  }

  /** Pages the table spans: the first page plus as many continuation pages
      as the rows left over need. */
  function TotalPages(firstPageRows: int, rowsPerFullPage: int, totalRows: int): (t: int)
    requires rowsPerFullPage != 0
    ensures rowsPerFullPage > 0 ==> t >= 1
    ensures rowsPerFullPage > 0 ==> (t == 1 <==> totalRows <= firstPageRows)
    ensures rowsPerFullPage > 0 && totalRows > firstPageRows ==>
      (t - 1) * rowsPerFullPage - rowsPerFullPage < totalRows - firstPageRows <= (t - 1) * rowsPerFullPage
  {
    var remainingRows := totalRows - firstPageRows;
    var additionalPages := Ceil(Max(0, remainingRows), rowsPerFullPage);
    assert rowsPerFullPage > 0 ==> additionalPages >= 0 && (additionalPages == 0 <==> remainingRows <= 0) by {
      if rowsPerFullPage > 0 { CeilOfNonNegative(Max(0, remainingRows), rowsPerFullPage); }
    }
    1 + additionalPages
  }

  /** The slice for one page, given the first page's and the continuation
      pages' row capacities. Page 1 starts at row 0; page `k > 1` starts after
      the first page's rows and `k - 2` full pages. */
  function PaginateRows(firstPageRows: int, rowsPerFullPage: int, totalRows: int, currentPage: int): (r: PaginationResult)
    requires rowsPerFullPage != 0
    ensures r.totalPages == TotalPages(firstPageRows, rowsPerFullPage, totalRows)
    ensures r.isFirstPage <==> currentPage == 1
    ensures r.isLastPage <==> currentPage == r.totalPages
    ensures r.endRow <= totalRows
    ensures currentPage == 1 ==> r.startRow == 0 && r.endRow == Min(firstPageRows, totalRows)
  {
    var totalPages := TotalPages(firstPageRows, rowsPerFullPage, totalRows);
    if currentPage == 1 then
      PaginationResult(0, Min(firstPageRows, totalRows), true, totalPages == 1, totalPages)
    else
      var rowsBeforePage := firstPageRows + (currentPage - 2) * rowsPerFullPage;
      PaginationResult(
        rowsBeforePage,
        Min(rowsBeforePage + rowsPerFullPage, totalRows),
        false,
        currentPage == totalPages,
        totalPages)
  }

  /** The geometry is usable when JavaScript's divisions stay finite: a
      measured (non-zero) row height and a continuation page that holds a
      non-zero number of rows. */
  predicate FiniteGeometry(page: PageSpec, dims: TableDimensions)
  {
    dims.rowHeight != 0 && RowsPerFullPage(page, dims.headerHeight, dims.rowHeight) != 0
  }

  /** `calculateTablePagination` of the PDF view, as written, on `page`
      (the source fixes `page` to `PdfPage`). */
  function PaginateTable(page: PageSpec, dims: TableDimensions, req: PageRequest): (r: PaginationResult)
    requires page.height > 0
    requires FiniteGeometry(page, dims)
    ensures r.isFirstPage <==> req.currentPage == 1
    ensures r.isLastPage <==> req.currentPage == r.totalPages
    ensures r.endRow <= req.totalRows
    ensures RowsPerFullPage(page, dims.headerHeight, dims.rowHeight) > 0 ==>
      r.totalPages >= 1 && (r.totalPages == 1 <==> req.totalRows <= FirstPageRows(page, dims))
  {
    PaginateRows(
      FirstPageRows(page, dims),
      RowsPerFullPage(page, dims.headerHeight, dims.rowHeight),
      req.totalRows,
      req.currentPage)
  }

  /** The paginator with the first page's row count clamped at zero; it
      differs from `PaginateTable` only when the table's
      top leaves no room for the header on its first page. */
  function PaginateTableClamped(page: PageSpec, dims: TableDimensions, req: PageRequest): (r: PaginationResult)
    requires page.height > 0
    requires FiniteGeometry(page, dims)
    ensures FirstPageRows(page, dims) >= 0 ==> r == PaginateTable(page, dims, req)
    ensures r.isFirstPage <==> req.currentPage == 1
    ensures r.isLastPage <==> req.currentPage == r.totalPages
    ensures req.currentPage == 1 && req.totalRows >= 0 ==> 0 == r.startRow <= r.endRow
  {
    PaginateRows(
      Max(0, FirstPageRows(page, dims)),
      RowsPerFullPage(page, dims.headerHeight, dims.rowHeight),
      req.totalRows,
      req.currentPage)
  }

  /** The paginator with every division by zero reported as
      `InvalidGeometry`, including row height 0, where JavaScript can still
      return a finite single page. */
  function TryPaginateTable(page: PageSpec, dims: TableDimensions, req: PageRequest): (r: Checked<PaginationResult>)
    requires page.height > 0
    ensures r.InvalidGeometry? <==> !FiniteGeometry(page, dims)
    ensures r.Ok? ==> r.value == PaginateTable(page, dims, req)
  {
    if FiniteGeometry(page, dims) then Ok(PaginateTable(page, dims, req)) else InvalidGeometry
  }

  // ---------------------------------------------------------------------------
  // Partition of the rows over the pages
  // ---------------------------------------------------------------------------

  /** The page a row belongs on: page 1 for the rows that fit under the
      table's top, then one continuation page per `rowsPerFullPage` rows. */
  function RowPage(firstPageRows: int, rowsPerFullPage: int, row: int): (p: int)
    requires rowsPerFullPage > 0
    ensures p >= 1
  {
    if row < firstPageRows then 1
    else
      var q := Floor(row - firstPageRows, rowsPerFullPage);
      MulLeInv(rowsPerFullPage, 0, q + 1);
      2 + q
  }

  /** Consecutive pages meet: each page ends where the next one starts. */
  lemma SlicesContiguous(firstPageRows: int, rowsPerFullPage: int, totalRows: int, k: int)
    requires rowsPerFullPage > 0
    requires 1 <= k < TotalPages(firstPageRows, rowsPerFullPage, totalRows)
    ensures PaginateRows(firstPageRows, rowsPerFullPage, totalRows, k).endRow
         == PaginateRows(firstPageRows, rowsPerFullPage, totalRows, k + 1).startRow
  {
    var F, R, N := firstPageRows, rowsPerFullPage, totalRows;
    var c := TotalPages(F, R, N) - 1;
    if k >= 2 {
      MulLe(R, k - 1, c - 1);
      assert R * (c - 1) == c * R - R;
      assert F + (k - 1) * R <= N;
    }
  }

  /** Every row of the table lies in the slice of exactly one page, and that
      page is among the table's pages. */
  lemma RowOnExactlyOnePage(firstPageRows: int, rowsPerFullPage: int, totalRows: int, row: int, k: int)
    requires rowsPerFullPage > 0
    requires 0 <= row < totalRows
    requires k >= 1
    ensures RowPage(firstPageRows, rowsPerFullPage, row) <= TotalPages(firstPageRows, rowsPerFullPage, totalRows)
    ensures var s := PaginateRows(firstPageRows, rowsPerFullPage, totalRows, k);
      s.startRow <= row < s.endRow <==> k == RowPage(firstPageRows, rowsPerFullPage, row)
  {
    var F, R, N := firstPageRows, rowsPerFullPage, totalRows;
    var s := PaginateRows(F, R, N, k);
    var t := TotalPages(F, R, N);
    if row < F {
      if k >= 2 {
        MulLe(R, 0, k - 2);
        assert s.startRow > row;
      }
    } else {
      var j := row - F;
      var q := Floor(j, R);
      var c := t - 1;
      if q >= c {
        MulLe(R, c, q);
      }
      if k >= 2 {
        assert s.startRow == F + (k - 2) * R;
        if k == 2 + q {
          assert R * (k - 2) + R == (k - 1) * R;
        } else if s.startRow <= row < s.endRow {
          assert (k - 1) * R == R * (k - 2) + R;
          FloorUnique(j, R, k - 2);
        }
      }
    }
  }

  /** Every continuation page up to the last is a non-empty index range;
      with a negative first-page count that range can lie below row 0. */
  lemma ContinuationPagesNonEmpty(firstPageRows: int, rowsPerFullPage: int, totalRows: int, k: int)
    requires rowsPerFullPage > 0
    requires 2 <= k <= TotalPages(firstPageRows, rowsPerFullPage, totalRows)
    ensures var s := PaginateRows(firstPageRows, rowsPerFullPage, totalRows, k);
      s.startRow < s.endRow
  {
    var F, R, N := firstPageRows, rowsPerFullPage, totalRows;
    var c := TotalPages(F, R, N) - 1;
    MulLe(R, k - 2, c - 1);
    assert R * (c - 1) == c * R - R;
  }

  /** The last page ends exactly at the last row. */
  lemma LastPageEndsAtTotal(firstPageRows: int, rowsPerFullPage: int, totalRows: int)
    requires rowsPerFullPage > 0
    ensures var t := TotalPages(firstPageRows, rowsPerFullPage, totalRows);
      PaginateRows(firstPageRows, rowsPerFullPage, totalRows, t).endRow == totalRows
  {
  }

  /** Among the table's pages, the slice reaches the last row exactly on the
      page flagged as the last one. */
  lemma LastPageIffReachesTotal(firstPageRows: int, rowsPerFullPage: int, totalRows: int, k: int)
    requires rowsPerFullPage > 0
    requires 1 <= k <= TotalPages(firstPageRows, rowsPerFullPage, totalRows)
    ensures var s := PaginateRows(firstPageRows, rowsPerFullPage, totalRows, k);
      s.endRow == totalRows <==> s.isLastPage
  {
    var F, R, N := firstPageRows, rowsPerFullPage, totalRows;
    if k < TotalPages(F, R, N) {
      SlicesContiguous(F, R, N, k);
      ContinuationPagesNonEmpty(F, R, N, k + 1);
    } else {
      LastPageEndsAtTotal(F, R, N);
    }
  }

  /** Pages past the last one start at or beyond the last row and show nothing. */
  lemma PagesBeyondLastAreEmpty(firstPageRows: int, rowsPerFullPage: int, totalRows: int, k: int)
    requires rowsPerFullPage > 0
    requires k > TotalPages(firstPageRows, rowsPerFullPage, totalRows)
    ensures var s := PaginateRows(firstPageRows, rowsPerFullPage, totalRows, k);
      s.endRow == totalRows <= s.startRow
  {
    var F, R, N := firstPageRows, rowsPerFullPage, totalRows;
    var c := TotalPages(F, R, N) - 1;
    MulLe(R, c, k - 2);
  }

  /** With a non-negative first-page count every slice of the table's pages
      is a well-formed range of existing rows. */
  lemma SliceWithinRows(firstPageRows: int, rowsPerFullPage: int, totalRows: int, k: int)
    requires firstPageRows >= 0
    requires rowsPerFullPage > 0
    requires totalRows >= 0
    requires 1 <= k <= TotalPages(firstPageRows, rowsPerFullPage, totalRows)
    ensures var s := PaginateRows(firstPageRows, rowsPerFullPage, totalRows, k);
      0 <= s.startRow <= s.endRow <= totalRows
  {
    var F, R, N := firstPageRows, rowsPerFullPage, totalRows;
    if k >= 2 {
      MulLe(R, 0, k - 2);
      ContinuationPagesNonEmpty(F, R, N, k);
    }
  }

  /** Continuation pages advance by the same number of rows wherever the
      table sits and however many rows it has: that stride depends on the
      page, the header and the row height only. */
  lemma ContinuationStrideIgnoresTopAndRows(
    page: PageSpec, d1: TableDimensions, d2: TableDimensions, n1: int, n2: int, k1: int, k2: int)
    requires page.height > 0
    requires FiniteGeometry(page, d1)
    requires d2.rowHeight == d1.rowHeight && d2.headerHeight == d1.headerHeight
    requires k1 >= 2 && k2 >= 2
    ensures PaginateTable(page, d1, PageRequest(n1, k1 + 1)).startRow - PaginateTable(page, d1, PageRequest(n1, k1)).startRow
         == PaginateTable(page, d2, PageRequest(n2, k2 + 1)).startRow - PaginateTable(page, d2, PageRequest(n2, k2)).startRow
  {
    var R := RowsPerFullPage(page, d1.headerHeight, d1.rowHeight);
    assert (k1 - 1) * R - (k1 - 2) * R == R;
    assert (k2 - 1) * R - (k2 - 2) * R == R;
  }

  /** The rows a page result shows. */
  function RangeOf(r: PaginationResult): RowRanges.RowRange
  {
    RowRanges.RowRange(r.startRow, r.endRow)
  }

  /** The row ranges of pages `1..k`, in page order. */
  function PageRanges(firstPageRows: int, rowsPerFullPage: int, totalRows: int, k: nat): (rs: seq<RowRanges.RowRange>)
    requires rowsPerFullPage != 0
    ensures |rs| == k
    ensures forall j :: 0 <= j < k ==> rs[j] == RangeOf(PaginateRows(firstPageRows, rowsPerFullPage, totalRows, j + 1))
  {
    if k == 0 then []
    else
      PageRanges(firstPageRows, rowsPerFullPage, totalRows, k - 1)
        + [RangeOf(PaginateRows(firstPageRows, rowsPerFullPage, totalRows, k))]
  }

  /** With a non-negative first-page count, the pages `1..totalPages`
      partition the rows: every row in `[0, totalRows)` is on exactly one of
      them, and nothing else is on any of them. */
  lemma PagesPartitionRows(firstPageRows: int, rowsPerFullPage: int, totalRows: int, row: int)
    requires firstPageRows >= 0
    requires rowsPerFullPage > 0
    requires totalRows >= 0
    ensures var rs := PageRanges(firstPageRows, rowsPerFullPage, totalRows, TotalPages(firstPageRows, rowsPerFullPage, totalRows));
      && (RowRanges.Covered(rs, row) <==> 0 <= row < totalRows)
      && RowRanges.Multiplicity(rs, row) <= 1
  {
    var rs := PageRanges(firstPageRows, rowsPerFullPage, totalRows, TotalPages(firstPageRows, rowsPerFullPage, totalRows));
    PageRangesChained(firstPageRows, rowsPerFullPage, totalRows);
    RowRanges.ChainCoversSpan(rs, row);
    RowRanges.ChainIsDisjoint(rs, row);
  }

  /** With a non-negative first-page count, the ranges of pages
      `1..totalPages` form a chain of well-formed ranges from row 0 to row
      `totalRows`. */
  lemma PageRangesChained(firstPageRows: int, rowsPerFullPage: int, totalRows: int)
    requires firstPageRows >= 0
    requires rowsPerFullPage > 0
    requires totalRows >= 0
    ensures var rs := PageRanges(firstPageRows, rowsPerFullPage, totalRows, TotalPages(firstPageRows, rowsPerFullPage, totalRows));
      && |rs| >= 1
      && RowRanges.WellFormed(rs) && RowRanges.Chained(rs)
      && rs[0].startRow == 0 && rs[|rs| - 1].endRow == totalRows
  {
    var F, R, N := firstPageRows, rowsPerFullPage, totalRows;
    var t := TotalPages(F, R, N);
    var rs := PageRanges(F, R, N, t);
    forall j | 0 <= j < t
      ensures rs[j].startRow <= rs[j].endRow
    {
      SliceWithinRows(F, R, N, j + 1);
    }
    forall j | 0 < j < t
      ensures rs[j - 1].endRow == rs[j].startRow
    {
      SlicesContiguous(F, R, N, j);
    }
    LastPageEndsAtTotal(F, R, N);
  }

  // ---------------------------------------------------------------------------
  // The clamped paginator keeps every slice inside the table
  // ---------------------------------------------------------------------------

  /** For every table position, the clamped paginator's slices over the
      table's pages are well-formed ranges of existing rows. */
  lemma ClampedSliceWithinRows(page: PageSpec, dims: TableDimensions, req: PageRequest)
    requires page.height > 0
    requires dims.rowHeight > 0
    requires RowsPerFullPage(page, dims.headerHeight, dims.rowHeight) > 0
    requires req.totalRows >= 0
    requires 1 <= req.currentPage <= PaginateTableClamped(page, dims, req).totalPages
    ensures var r := PaginateTableClamped(page, dims, req);
      0 <= r.startRow <= r.endRow <= req.totalRows
  {
    SliceWithinRows(
      Max(0, FirstPageRows(page, dims)),
      RowsPerFullPage(page, dims.headerHeight, dims.rowHeight),
      req.totalRows,
      req.currentPage);
  }

  /** For every table position, the clamped paginator's pages
      `1..totalPages` partition the rows `[0, totalRows)`: `rs` lists the
      clamped paginator's slice for each of its pages, every row of the table
      is in one of them and no row is in two. */
  lemma ClampedPagesPartitionRows(page: PageSpec, dims: TableDimensions, totalRows: int, row: int)
    requires page.height > 0
    requires dims.rowHeight > 0
    requires RowsPerFullPage(page, dims.headerHeight, dims.rowHeight) > 0
    requires totalRows >= 0
    ensures var F := Max(0, FirstPageRows(page, dims));
      var R := RowsPerFullPage(page, dims.headerHeight, dims.rowHeight);
      var rs := PageRanges(F, R, totalRows, TotalPages(F, R, totalRows));
      && |rs| == PaginateTableClamped(page, dims, PageRequest(totalRows, 1)).totalPages
      && (forall j :: 0 <= j < |rs| ==> rs[j] == RangeOf(PaginateTableClamped(page, dims, PageRequest(totalRows, j + 1))))
      && (RowRanges.Covered(rs, row) <==> 0 <= row < totalRows)
      && RowRanges.Multiplicity(rs, row) <= 1
  {
    PagesPartitionRows(
      Max(0, FirstPageRows(page, dims)),
      RowsPerFullPage(page, dims.headerHeight, dims.rowHeight),
      totalRows,
      row);
  }

  // ---------------------------------------------------------------------------
  // Worked examples on the Letter page (header 30, rows 25)
  // ---------------------------------------------------------------------------

  /** A table at the top of the canvas with ten rows fits on one page. */
  lemma TableAtTopFitsOnOnePage()
    ensures FirstPageRows(PdfPage, TableDimensions(0, 300, 25, 30)) == 39
    ensures PaginateTable(PdfPage, TableDimensions(0, 300, 25, 30), PageRequest(10, 1))
         == PaginationResult(0, 10, true, true, 1)
  {
  }

  /** A table whose top is 56 pixels above the page bottom has no room for
      its header: the first page's row count is -1, page 1 ends before it
      starts and page 2 starts at row -1. */
  lemma TableNearPageBottomGoesNegative()
    ensures FirstPageRows(PdfPage, TableDimensions(1000, 300, 25, 30)) == -1
    ensures RowsPerFullPage(PdfPage, 30, 25) == 37
    ensures PaginateTable(PdfPage, TableDimensions(1000, 300, 25, 30), PageRequest(100, 1))
         == PaginationResult(0, -1, true, false, 4)
    ensures PaginateTable(PdfPage, TableDimensions(1000, 300, 25, 30), PageRequest(100, 2))
         == PaginationResult(-1, 36, false, false, 4)
  {
  }

  /** A table one pixel above the page bottom with a 500 pixel header and
      1 pixel rows: the first page's row count is -539, so page 2 is the
      index range `[-539, -63)`, which holds none of the table's ten rows,
      and only page 3 shows them. */
  lemma TableAtPageBottomBlankContinuationPage()
    ensures FirstPageRows(PdfPage, TableDimensions(1055, 510, 1, 500)) == -539
    ensures RowsPerFullPage(PdfPage, 500, 1) == 476
    ensures PaginateTable(PdfPage, TableDimensions(1055, 510, 1, 500), PageRequest(10, 2))
         == PaginationResult(-539, -63, false, false, 3)
    ensures PaginateTable(PdfPage, TableDimensions(1055, 510, 1, 500), PageRequest(10, 3))
         == PaginationResult(-63, 10, false, true, 3)
  {
  }

  /** An empty table near the page bottom still gets a second page, holding
      the index range `[-1, 0)`. */
  lemma EmptyTableNearPageBottomGetsTwoPages()
    ensures PaginateTable(PdfPage, TableDimensions(1000, 30, 25, 30), PageRequest(0, 1))
         == PaginationResult(0, -1, true, false, 2)
    ensures PaginateTable(PdfPage, TableDimensions(1000, 30, 25, 30), PageRequest(0, 2))
         == PaginationResult(-1, 0, false, true, 2)
  {
    assert FirstPageRows(PdfPage, TableDimensions(1000, 30, 25, 30)) == -1;
    assert RowsPerFullPage(PdfPage, 30, 25) == 37;
    CeilUnique(1, 37, 1);
    assert TotalPages(-1, 37, 0) == 2;
  }

  /** Under the clamped paginator every continuation page up to the last
      shows at least one of the table's rows, whatever the table's top. */
  lemma ClampedContinuationPagesHoldRows(page: PageSpec, dims: TableDimensions, req: PageRequest)
    requires page.height > 0
    requires dims.rowHeight > 0
    requires RowsPerFullPage(page, dims.headerHeight, dims.rowHeight) > 0
    requires req.totalRows >= 0
    requires 2 <= req.currentPage <= PaginateTableClamped(page, dims, req).totalPages
    ensures var r := PaginateTableClamped(page, dims, req);
      0 <= r.startRow < r.endRow <= req.totalRows
  {
    var F := Max(0, FirstPageRows(page, dims));
    var R := RowsPerFullPage(page, dims.headerHeight, dims.rowHeight);
    SliceWithinRows(F, R, req.totalRows, req.currentPage);
    ContinuationPagesNonEmpty(F, R, req.totalRows, req.currentPage);
  }

  /** The same table under the clamped paginator: page 1 is empty and the
      continuation pages take rows from 0. */
  lemma TableNearPageBottomClamped()
    ensures PaginateTableClamped(PdfPage, TableDimensions(1000, 300, 25, 30), PageRequest(100, 1))
         == PaginationResult(0, 0, true, false, 4)
    ensures PaginateTableClamped(PdfPage, TableDimensions(1000, 300, 25, 30), PageRequest(100, 2))
         == PaginationResult(0, 37, false, false, 4)
  {
  }
}

=== FILE: row_ranges.dfy ===
/** Half-open ranges of table rows, and why a chain of them partitions the
    rows it spans. Both paginators hand out one such range per page; their
    partition properties are this module's lemmas applied to the ranges of
    pages `1..totalPages`. */
module RowRanges {

  /** The rows `[startRow, endRow)`. */
  datatype RowRange = RowRange(startRow: int, endRow: int)

  predicate Contains(r: RowRange, row: int)
  {
    r.startRow <= row < r.endRow
  }

  /** No range ends before it starts. */
  predicate WellFormed(rs: seq<RowRange>)
  {
    forall j :: 0 <= j < |rs| ==> rs[j].startRow <= rs[j].endRow
  }

  /** Each range starts where the previous one ends. */
  predicate Chained(rs: seq<RowRange>)
  {
    forall j :: 0 < j < |rs| ==> rs[j - 1].endRow == rs[j].startRow
  }

  /** Some range of `rs` contains `row`. */
  predicate Covered(rs: seq<RowRange>, row: int)
  {
    if |rs| == 0 then false
    else Covered(rs[..|rs| - 1], row) || Contains(rs[|rs| - 1], row)
  }

  /** How many ranges of `rs` contain `row`. */
  function Multiplicity(rs: seq<RowRange>, row: int): nat
  {
    if |rs| == 0 then 0
    else Multiplicity(rs[..|rs| - 1], row) + (if Contains(rs[|rs| - 1], row) then 1 else 0)
  }

  /** A chain of well-formed ranges covers exactly the rows from the start of
      its first range to the end of its last one. */
  lemma {:induction false} ChainCoversSpan(rs: seq<RowRange>, row: int)
    requires |rs| >= 1
    requires WellFormed(rs) && Chained(rs)
    ensures Covered(rs, row) <==> rs[0].startRow <= row < rs[|rs| - 1].endRow
  {
    var n := |rs|;
    if n > 1 {
      var init := rs[..n - 1];
      assert init[0] == rs[0] && init[n - 2] == rs[n - 2];
      assert WellFormed(init) && Chained(init);
      ChainCoversSpan(init, row);
      ChainStartsBeforeEnd(init);
      assert rs[n - 2].endRow == rs[n - 1].startRow;
    }
  }

  /** A chain of well-formed ranges never runs backwards. */
  lemma {:induction false} ChainStartsBeforeEnd(rs: seq<RowRange>)
    requires |rs| >= 1
    requires WellFormed(rs) && Chained(rs)
    ensures rs[0].startRow <= rs[|rs| - 1].endRow
  {
    var n := |rs|;
    if n > 1 {
      var init := rs[..n - 1];
      assert init[0] == rs[0] && init[n - 2] == rs[n - 2];
      assert WellFormed(init) && Chained(init);
      ChainStartsBeforeEnd(init);
      assert rs[n - 2].endRow == rs[n - 1].startRow;
    }
  }

  /** No row lies in two ranges of a chain of well-formed ranges. */
  lemma {:induction false} ChainIsDisjoint(rs: seq<RowRange>, row: int)
    requires WellFormed(rs) && Chained(rs)
    ensures Multiplicity(rs, row) <= 1
    ensures Multiplicity(rs, row) == 1 <==> Covered(rs, row)
  {
    var n := |rs|;
    if n > 0 {
      var init := rs[..n - 1];
      assert WellFormed(init) && Chained(init);
      ChainIsDisjoint(init, row);
      if n > 1 {
        assert init[0] == rs[0] && init[n - 2] == rs[n - 2];
        ChainCoversSpan(init, row);
        assert rs[n - 2].endRow == rs[n - 1].startRow;
      }
    }
  }
}

=== FILE: variants.dfy ===
/** How the two paginators and the two page geometries relate: the Letter
    geometry of the PDF view and the A4 default of the uniform paginator. */
module Variants {
  import opened JsMath
  import PdfMode
  import Pagination

  /** With the same page height and the shared 40 pixel margin, a
      continuation page of the PDF view holds exactly as many rows as a page
      of the uniform paginator. */
  lemma FullPageCapacitiesAgree(width: int, height: int, headerHeight: int, rowHeight: int)
    requires rowHeight != 0
    ensures PdfMode.RowsPerFullPage(PdfMode.PageSpec(width, height, Pagination.PageMargin), headerHeight, rowHeight)
         == Pagination.RowsPerPage(height, headerHeight, rowHeight)
  {
  }

  /** On a page of the same height, the page a widget is visible on is the
      page its top falls on. */
  lemma VisibilityMatchesPageForY(page: PdfMode.PageSpec, position: Pagination.Position, p: int)
    requires page.height > 0
    ensures Pagination.IsTableVisible(position, p, page.height) <==> p == PdfMode.PageForY(page, position.y)
  {
  }

  /** The two defaults disagree: the canvas row 1100 is on page 2 of the
      Letter geometry but on page 1 of the A4 default. */
  lemma DefaultPageHeightsDisagree()
    ensures PdfMode.PageForY(PdfMode.PdfPage, 1100) == 2
    ensures Pagination.IsTableVisible(Pagination.Position(0, 1100), 1, Pagination.A4HeightPx)
  {
  }

  /** A table whose top sits exactly on a page's top margin gets a full first
      page, and then the two paginators cut its rows identically; they differ
      only on an empty table, which the PDF view gives one page and the
      uniform paginator none. */
  lemma VariantsAgreeAtTopMargin(
    width: int, height: int, top: int, tableHeight: int, headerHeight: int, rowHeight: int,
    totalRows: int, k: int)
    requires height > 0 && rowHeight > 0
    requires top >= 0
    requires PdfMode.RelativeY(PdfMode.PageSpec(width, height, Pagination.PageMargin), top) == Pagination.PageMargin
    requires Pagination.RowsPerPage(height, headerHeight, rowHeight) > 0
    requires totalRows >= 0
    requires k >= 1
    ensures
      var page := PdfMode.PageSpec(width, height, Pagination.PageMargin);
      var pd := PdfMode.TableDimensions(top, tableHeight, rowHeight, headerHeight);
      var ud := Pagination.TableDimensions(headerHeight, rowHeight, width, tableHeight);
      var a := PdfMode.PaginateTable(page, pd, PdfMode.PageRequest(totalRows, k));
      var b := Pagination.CalculateTablePagination(ud, Pagination.TableContent(totalRows, k), height);
      && a.startRow == b.startRow
      && a.endRow == b.endRow
      && (totalRows > 0 ==> a.totalPages == b.totalPages)
      && (totalRows == 0 ==> a.totalPages == 1 && b.totalPages == 0)
  {
    var page := PdfMode.PageSpec(width, height, Pagination.PageMargin);
    var pd := PdfMode.TableDimensions(top, tableHeight, rowHeight, headerHeight);
    var R := Pagination.RowsPerPage(height, headerHeight, rowHeight);
    FullPageCapacitiesAgree(width, height, headerHeight, rowHeight);
    assert PdfMode.FirstPageRows(page, pd) == R;
    var u := Ceil(totalRows, R);
    CeilOfNonNegative(totalRows, R);
    if totalRows > R {
      assert R * (u - 1) == u * R - R;
      CeilUnique(totalRows - R, R, u - 1);
    } else if totalRows > 0 {
      CeilUnique(totalRows, R, 1);
    }
    if k >= 2 {
      assert R + (k - 2) * R == (k - 1) * R;
    }
  }
}
